=== FILE: README.md ===
# pykeyboard keyboard core in Dafny

This project models the keyboard-building core of pykeyboard, a helper library
for Telegram bots built on pyrogram. The model covers four parts:

- **Row layout.** `KeyboardBase.add` and `InlineKeyboard.add` replace a
  keyboard's rows with the given buttons, `row_width` to a row. `row` appends
  one row.
- **Pagination window.** `InlineKeyboard.paginate(T, C, pattern)` records the
  pagination state and appends one row of at most five navigation buttons.
  The row is one of four shapes: full, left, right or middle.
- **Language picker.** `InlineKeyboard.languages` turns locale codes into
  labelled buttons and lays them out with its own `row_width` argument.
- **Config helpers and errors.** `validate_keyboard_config`,
  `create_keyboard_from_config` and the counting fields of
  `get_keyboard_info` are modelled, along with the exception classes, their
  codes and their messages.

Modules, one per source file or concern:

| file | module | models |
|---|---|---|
| `layout.dfy` | `Layout` | the slicing comprehension `[xs[i:i+w] for i in range(0, len(xs), w)]` |
| `keyboard_base.dfy` | `KeyboardBases` | `KeyboardBase` as a class |
| `pagination.dfy` | `Pagination` | `_left/_middle/_right/_full_pagination`, `_build_pagination`, `_add_button` |
| `inline_keyboard.dfy` | `InlineKeyboards` | `InlineKeyboard` as a class, `_LOCALES`, `languages` |
| `config.dfy` | `KeyboardConfig` | `validate_keyboard_config`, `create_keyboard_from_config`, `get_keyboard_info` counts |
| `errors.dfy` | `Errors` | the exception classes |
| `py_value.dfy`, `format.dfy`, `buttons.dfy`, `wrappers.dfy` | | Python values, `str()`/`int()`, one-keyword `str.format`, buttons, Option/Result |

Modelling choices:

- A button is its class plus the keyword arguments it was built with. Plain
  page buttons get the page number as an `int` text, exactly as in
  `inline_keyboard.py:68`.
- A callback pattern is pre-split into literal text and `{name}` fields.
  `pattern.format(number=n)` succeeds exactly when every field is `{number}`.
  Any other field raises in Python; here that is `None`, so `paginate` and
  `languages` report whether formatting succeeded and otherwise leave the
  rows alone.
- The Python code accepts any integer row width. A zero step makes `range`
  raise, which the methods take as `requires rowWidth != 0`. A negative width
  gives no rows (`Layout.Slices`). The layout properties are proved for
  widths of at least 1.
- The choice between `match` and the legacy `if` chain in
  `validate_keyboard_config` is a boolean parameter. In Python it comes from
  the interpreter version.

The model follows what this version of `pykeyboard/inline_keyboard.py`,
`keyboard_base.py`, `utils.py` and `errors.py` does:

- `paginate` validates nothing and has no duplicate-render guard.
- `languages` keeps unknown codes with the label `"Invalid locale"` instead
  of dropping them.
- `add` and `row` return `None`.
- In `create_keyboard_from_config`, each button goes through its own `add`,
  so only the last button remains.

## Model

| member | source | states |
|---|---|---|
| `Layout.Slices` | pykeyboard/keyboard_base.py:10-13 | definition of the slicing comprehension for any non-zero width (no rows for a negative one); characterised by `ChunkFlatten`, `ChunkCount`, `ChunkRowSizes` and `ChunkAt` through `Chunk` |
| `Layout.Chunk` | pykeyboard/inline_keyboard.py:41-43 | definition of the comprehension for a width ≥ 1 (also `inline_keyboard.py:155-157`); characterised by `ChunkFlatten`, `ChunkCount`, `ChunkRowSizes` and `ChunkAt` |
| `Layout.ChunkFlatten` | pykeyboard/keyboard_base.py:8-13 | reading the rows of `add` back, row after row, gives exactly the buttons passed, in order (also `InlineKeyboard.add`) |
| `Layout.ChunkCount` | pykeyboard/inline_keyboard.py:40-43 | `add` with n buttons and width w ≥ 1 makes ceil(n/w) rows: (rows−1)·w < n ≤ rows·w, so `add()` makes none |
| `Layout.ChunkRowSizes` | pykeyboard/keyboard_base.py:10-13 | every row but the last holds exactly w buttons; the last holds between 1 and w |
| `Layout.ChunkAt` | pykeyboard/keyboard_base.py:10-13 | row k is the slice `args[k*w : k*w + w]` that the comprehension takes for the k-th value of `range(0, n, w)` |
| `KeyboardBases.KeyboardBase.constructor` | pykeyboard/keyboard_base.py:3-6 | the dataclass constructor stores `row_width` and `keyboard` as given, defaulting to 3 and no rows |
| `KeyboardBases.KeyboardBase.Add` | pykeyboard/keyboard_base.py:8-13 | the rows become the buttons sliced by `row_width`; earlier rows are discarded |
| `KeyboardBases.KeyboardBase.Row` | pykeyboard/keyboard_base.py:15-17 | exactly one row equal to the arguments is appended (`[]` for none); earlier rows stay |
| `InlineKeyboards.InlineKeyboard.constructor` | pykeyboard/inline_keyboard.py:35-38 | no rows, the given row width (3 when omitted), no pagination state yet |
| `InlineKeyboards.InlineKeyboard.Add` | pykeyboard/inline_keyboard.py:40-43 | the rows become the buttons sliced by `row_width`, replacing what was there |
| `InlineKeyboards.InlineKeyboard.Row` | pykeyboard/inline_keyboard.py:45-46 | one row equal to the arguments is appended; earlier rows stay |
| `InlineKeyboards.InlineKeyboard.Paginate` | pykeyboard/inline_keyboard.py:135-140 | sets `count_pages`, `current_page` and `callback_pattern`, then appends exactly the pagination row without touching earlier rows; if the pattern cannot be formatted, the rows are unchanged |
| `InlineKeyboards.InlineKeyboard.Languages` | pykeyboard/inline_keyboard.py:142-157 | the rows become the locale buttons sliced by the `row_width` argument (2 when omitted); if the pattern cannot be formatted, the rows are unchanged |
| `Buttons.CallbackButton` | pykeyboard/inline_keyboard.py:49-51 | definition of an `InlineKeyboardButton(text=…, callback_data=…)` (also `inline_keyboard.py:148-151`); characterised by `PaginationCallbacks` and `LoneLocaleOneButton` |
| `InlineKeyboards.LocaleCodes` | pykeyboard/inline_keyboard.py:145 | definition: a lone code is wrapped in a one-element list; characterised by `LoneLocaleOneButton` |
| `InlineKeyboards.LoneLocaleOneButton` | pykeyboard/inline_keyboard.py:145-157 | a lone code gives one row holding one button, with the code's label and the formatted callback, for any width ≥ 1; it raises exactly when the pattern has a field other than `{locale}` |
| `InlineKeyboards.Locales` | pykeyboard/inline_keyboard.py:17-33 | definition: the thirteen locale codes and their flagged labels |
| `InlineKeyboards.LocaleLabel` | pykeyboard/inline_keyboard.py:149 | definition: `_LOCALES.get(code, "Invalid locale")`; used by `LocaleButtons` and `LanguagesInOrder` |
| `InlineKeyboards.LocaleButtons` | pykeyboard/inline_keyboard.py:147-153 | one button per code, in input order: the `_LOCALES` label (or `"Invalid locale"`) and the pattern with `{locale}` replaced by the code; it fails exactly when the list is non-empty and the pattern has another field |
| `InlineKeyboards.LanguagesInOrder` | pykeyboard/inline_keyboard.py:142-157 | read row by row, the picker lists every code in order (duplicates and unknown codes included) in ceil(n/w) rows |
| `InlineKeyboards.LanguagesLiteralPattern` | pykeyboard/inline_keyboard.py:150 | a pattern without `{locale}` does not raise, and every callback is the pattern's own text |
| `Pagination.CaseOf` | pykeyboard/inline_keyboard.py:123-133 | definition of the case split: full for T ≤ 5, else left for C ≤ 3, right for C > T−3, middle otherwise; characterised by `LeftShape`, `MiddleShape`, `RightShape` and `WindowExamples` |
| `Pagination.FullWindow` | pykeyboard/inline_keyboard.py:112-121 | definition: pages 1..T, page C drawn as current; characterised by `WindowTargets` and `ExactlyOneCurrent` |
| `Pagination.LeftWindow` | pykeyboard/inline_keyboard.py:53-73 | definition; characterised by `LeftShape` |
| `Pagination.MiddleWindow` | pykeyboard/inline_keyboard.py:75-93 | definition; characterised by `MiddleShape` |
| `Pagination.RightWindow` | pykeyboard/inline_keyboard.py:95-110 | definition; characterised by `RightShape` |
| `Pagination.Label` | pykeyboard/inline_keyboard.py:12-16 | definition of each button's `text`: the page as an `int` for plain pages, the symbol string otherwise; characterised by `LabelMarksCurrent` |
| `Pagination.Render` | pykeyboard/inline_keyboard.py:48-51 | definition of `_add_button`; characterised by `RenderRow` and `PaginationCallbacks` |
| `Pagination.PaginationRow` | pykeyboard/inline_keyboard.py:140 | definition of the row `paginate` appends; characterised by the `Paginate` ensures, `RenderRow` and `PaginationCallbacks` |
| `Pagination.Window` | pykeyboard/inline_keyboard.py:123-133 | the window has T buttons when 0 < T ≤ 5, exactly 5 when T > 5, and none when T ≤ 0 |
| `Pagination.WindowTargets` | pykeyboard/inline_keyboard.py:53-121 | for 1 ≤ C ≤ T, targets rise strictly, start at page 1, end at page T and stay within 1..T |
| `Pagination.WindowCurrent` | pykeyboard/inline_keyboard.py:53-121 | for 1 ≤ C ≤ T, a button is drawn as current exactly when it targets C, and some button targets C |
| `Pagination.ExactlyOneCurrent` | pykeyboard/inline_keyboard.py:53-121 | for 1 ≤ C ≤ T, exactly one button is the current-page button, and it targets C |
| `Pagination.LabelMarksCurrent` | pykeyboard/inline_keyboard.py:12-16 | the text `"· C ·"` belongs only to the current-page button for page C; no other symbol produces it |
| `Pagination.CurrentLabelUnique` | pykeyboard/inline_keyboard.py:56-58 | for 1 ≤ C ≤ T, exactly the current button of the window carries the text `"· C ·"` |
| `Pagination.LeftShape` | pykeyboard/inline_keyboard.py:53-73 | with T > 5 and C ≤ 3: position 4 is `"4 ›"`, position 5 targets T, position C is current, and the other positions are plain pages |
| `Pagination.MiddleShape` | pykeyboard/inline_keyboard.py:75-93 | with T > 5 and 3 < C ≤ T−3, the window is first→1, prev→C−1, current→C, next→C+1, last→T |
| `Pagination.RightShape` | pykeyboard/inline_keyboard.py:95-110 | with T > 5 and C > T−3, the window is first→1, prev→T−3, then pages T−2, T−1, T, each a plain page number except page C, which is drawn as current |
| `Pagination.WindowExamples` | pykeyboard/inline_keyboard.py:123-133 | (100, 50) gives «1 ‹49 ·50· 51› 100»; (6, 3) gives 1 2 ·3· 4› 6» (page 5 skipped); (7, 5) gives «1 ‹4 ·5· 6 7; (7, 4) is the middle case; (1, 1) is a lone current button |
| `Pagination.RenderRow` | pykeyboard/inline_keyboard.py:48-51 | each rendered button comes from the window button at the same position; rendering fails exactly when the window is non-empty and the pattern has a field other than `{number}` |
| `Pagination.PaginationCallbacks` | pykeyboard/inline_keyboard.py:48-51 | every button's callback data is the pattern with `{number}` replaced by the decimal form of the button's target page |
| `Format.FormatWith` | pykeyboard/inline_keyboard.py:50 | `pattern.format(key=value)` succeeds exactly when every field of the pattern is `{key}` |
| `Format.FormatNoFields` | pykeyboard/inline_keyboard.py:150 | a pattern with no fields formats to its own literal text, whatever the keyword |
| `PyValue.IntToString` | pykeyboard/inline_keyboard.py:50 | `str(n)` is non-empty and starts with a digit or `-` |
| `PyValue.IntToStringRoundTrip` | pykeyboard/inline_keyboard.py:50 | `int(str(n)) == n`, so a callback's number identifies its target page |
| `Errors.ErrorCode` | pykeyboard/errors.py:27-135 | definition of each class's `error_code`; characterised by `ErrorCodes` |
| `Errors.Message` | pykeyboard/errors.py:29-143 | definition of the `message` each constructor builds; characterised by `ValidationMessagePriority`, `ParameterMessages` and `UnchangedIsPaginationError` |
| `Errors.ValidationMessage` | pykeyboard/errors.py:58-64 | definition of the `ValidationError` message; characterised by `ValidationMessagePriority` |
| `Errors.Text` | pykeyboard/errors.py:31 | definition of `str(e)`; characterised by `TextRoundTrip` |
| `Errors.TextRoundTrip` | pykeyboard/errors.py:29-31 | `str(e)` is `"[" + error_code + "] " + message`; the code and the unchanged message can both be read back from it |
| `Errors.ErrorCodes` | pykeyboard/errors.py:27-135 | each class has its fixed code (`PYKEYBOARD_ERROR`, `VALIDATION_ERROR`, `PAGINATION_ERROR`, `LOCALE_ERROR`, `CONFIG_ERROR`); two errors share a code exactly when they belong to the same class family |
| `Errors.ValidationMessagePriority` | pykeyboard/errors.py:58-64 | a non-empty `reason` wins, else a non-empty `expected` gives "expected …, got <type name>", else the bare "Validation failed for '<field>'" |
| `Errors.DefaultValidationError` | pykeyboard/errors.py:45-64 | `ValidationError(field)` stores `value` None, has code `VALIDATION_ERROR` and the bare message "Validation failed for '<field>'" |
| `Errors.ParameterMessages` | pykeyboard/errors.py:78-143 | the messages are exactly "Invalid pagination param '<param>': <reason>", "Invalid locale param '<param>': <reason>" and "Invalid configuration '<setting>': <reason>" |
| `Errors.UnchangedIsPaginationError` | pykeyboard/errors.py:95-99 | `PaginationUnchangedError(source)` is a pagination error with param `keyboard_state`, value `source` and reason "unchanged since last call"; its code stays `PAGINATION_ERROR` |
| `Errors.DefaultLocaleError` | pykeyboard/errors.py:113-123 | `LocaleError(param)` stores value None, has code `LOCALE_ERROR`, and its message ends right after `"': "` because the reason defaults to `""` |
| `KeyboardConfig.ValidateKeyboardConfig` | pykeyboard/utils.py:156-189 | definition: the `match` branch or the legacy branch; characterised by `ValidateEmptyIff` and `WellFormedConfigValidates` |
| `KeyboardConfig.ValidateMatchCase` | pykeyboard/utils.py:167-176 | definition of the `match` branch; characterised by `MatchCaseIsFirstLegacyError` |
| `KeyboardConfig.ValidateLegacy` | pykeyboard/utils.py:177-187 | definition of the `if` chain; characterised by `LegacyReportsEveryFailure` |
| `KeyboardConfig.TypeMessage` | pykeyboard/utils.py:170 | definition of the `"Invalid keyboard type: …"` message (also `utils.py:179`); characterised by `LegacyReportsEveryFailure` |
| `KeyboardConfig.ValidateEmptyIff` | pykeyboard/utils.py:156-189 | on either branch, the error list is empty exactly when `type` (if present) is `"inline"`/`"reply"`, `row_width` (if present) is an int ≥ 1 and `buttons` (if present) is a list |
| `KeyboardConfig.WellFormedConfigValidates` | pykeyboard/utils.py:156-189 | a config with one of the two types, an int width ≥ 1 and a button list validates to `[]` |
| `KeyboardConfig.LegacyReportsEveryFailure` | pykeyboard/utils.py:177-187 | the legacy branch reports only messages of the three checks, and the type message iff the type is present and wrong (case-sensitive), the width message iff the width is present and bad, and the buttons message iff buttons are present and not a list, in that order |
| `KeyboardConfig.MatchCaseIsFirstLegacyError` | pykeyboard/utils.py:167-176 | the `match` branch reports at most one message: the first one the legacy branch reports |
| `KeyboardConfig.ConfigOutcome` | pykeyboard/utils.py:59-111 | definition of what `create_keyboard_from_config` returns or raises; characterised by `OnlyLastButtonKept`, `KindAndButtonClassDiffer` and `UnsupportedTypeRaises` |
| `KeyboardConfig.BoardKindOf` | pykeyboard/utils.py:74-90 | definition of the keyboard class choice; characterised by `TypeCaseInsensitive` and `TypeDefaultsToInline` |
| `KeyboardConfig.ButtonKindOf` | pykeyboard/utils.py:97-107 | definition of the case-sensitive button class choice; characterised by `KindAndButtonClassDiffer` and `TypeDefaultsToInline` |
| `KeyboardConfig.MakeButton` | pykeyboard/utils.py:98-107 | definition of the button one configured item becomes; characterised by `KindAndButtonClassDiffer` |
| `KeyboardConfig.UnsupportedMessage` | pykeyboard/utils.py:83 | definition of the `"Unsupported keyboard type: …"` message (also `utils.py:90`); characterised by `UnsupportedTypeRaises` through `FailureMessage` |
| `KeyboardConfig.FailureMessage` | pykeyboard/utils.py:77-109 | definition of the text of the exception each failure raises; characterised by `UnsupportedTypeRaises` |
| `KeyboardConfig.RowWidthCopiedUnchecked` | pykeyboard/utils.py:92-93 | a present integer `row_width` reaches the keyboard as given, widths below 1 included (0 only when there are no buttons to add); an absent one leaves 3 |
| `KeyboardConfig.NegativeWidthBuilds` | pykeyboard/utils.py:92-109 | `{"row_width": -2, "buttons": ["a"]}` fails validation on both branches with the row-width message, yet builds an inline keyboard of width -2 with no rows |
| `KeyboardConfig.CreateKeyboardFromConfig` | pykeyboard/utils.py:59-111 | builds exactly what `ConfigOutcome` describes: the keyboard class, the copied row width and the rows, or the exception raised |
| `KeyboardConfig.AddEachInline` | pykeyboard/utils.py:97-109 | calling `add` once per button leaves only the last button's layout |
| `KeyboardConfig.AddEachReply` | pykeyboard/utils.py:97-109 | the same loop on a reply keyboard |
| `KeyboardConfig.OnlyLastButtonKept` | pykeyboard/utils.py:95-109 | a built keyboard has at most one row; it has one exactly when there are buttons and the width is positive, and that row is the last button alone |
| `KeyboardConfig.KindAndButtonClassDiffer` | pykeyboard/utils.py:76-107 | `"INLINE"` gives an inline keyboard (case-insensitive choice) whose single row is the last configured item as a reply button (case-sensitive choice) |
| `KeyboardConfig.TypeDefaultsToInline` | pykeyboard/utils.py:74 | without a `type` key the keyboard and its buttons are inline |
| `KeyboardConfig.TypeCaseInsensitive` | pykeyboard/utils.py:76-90 | the keyboard class depends only on the lower-cased type; anything other than inline/reply is "Unsupported keyboard type" |
| `KeyboardConfig.UnsupportedTypeRaises` | pykeyboard/utils.py:76-90 | a string type that lowers to neither kind raises `UnsupportedType` before any button is read, and the raised exception's message is "Unsupported keyboard type: <type as given>" |
| `KeyboardConfig.KeyboardCounts` | pykeyboard/utils.py:123-138 | definition of the three counting fields; characterised by `SumLengths` and `CountsAfterAdd` |
| `KeyboardConfig.SumLengths` | pykeyboard/utils.py:126 | `total_buttons` is the number of buttons read row by row |
| `KeyboardConfig.CountsAfterAdd` | pykeyboard/utils.py:123-143 | after `add` of n buttons with width w ≥ 1: `total_buttons` = n, `total_rows` = ceil(n/w), and `has_pagination` iff `count_pages > 0` |

## Left out

- This version of `pykeyboard/inline_keyboard.py` has no duplicate-render guard, no `pagination_client_context` (which `__init__.py` imports from it), no custom locales, no precondition errors in `paginate`/`languages` and no `to_dict`/`from_dict`. None of `inline_keyboard.py`, `keyboard_base.py`, `utils.py` and `errors.py` defines hooks, a builder or a visualizer; `builder.py`, `hooks.py` and the other modules `__init__.py` imports are not part of this model.
- `reply_keyboard.py` is not part of this model. The model ASSUMES that `ReplyKeyboard` behaves like `KeyboardBase` over buttons: the same defaults (`row_width` 3, no rows) and the same replacing `add`. `tests/test_utils.py:76-90` contradicts that assumption: it expects a reply keyboard built from two configured buttons to hold one row with both, which a replacing per-button `add` cannot produce. `KeyboardConfig.AddEachReply` and the reply case of `KeyboardConfig.OnlyLastButtonKept` depend on the assumption.
- `utils.py:6` imports `InlineButton` from `keyboard_base.py`, which does not define it. The model takes `InlineButton` to be the inline button class.
- `InlineButton` and the pyrogram markup types are thin wrappers over the host framework. A button is its class and its keyword arguments. Unknown keywords, which make the constructor raise, are not modelled.
- `str.format` beyond one keyword argument is not modelled: no format specs or conversions (`{number:03d}`, `{number!r}`) and no attribute or index lookups. Patterns arrive already split into text and fields.
- `PyValue.Repr`: strings are quoted with single quotes, without Python's escaping or its choice of quote character (Python writes `str(["it's"])` as `["it's"]`, the model as `['it's']`), and an `Other` value inside a container is shown by its `str()` text rather than its `repr()`. This affects two places: the "Invalid keyboard type" and "Unsupported keyboard type" messages for list or dict types, and the `text` that `KeyboardConfig.MakeButton` gives a non-dict `buttons` item that is a list or dict.
- `KeyboardConfig.AsciiLower`: `str.lower()` is modelled on the letters A–Z only. No other character lowers to a letter of "inline" or "reply", so the keyboard class chosen is the same.
- `KeyboardConfig.Iterate`: values other than lists, strings and dicts (tuples, sets, generators) are treated as not iterable. Python would loop over them.
- `KeyboardConfig.CreateKeyboardFromConfig`: with a non-integer `row_width` and no buttons, the source stores the value and returns the keyboard. The model's widths are integers, so it reports `RowWidthNotInteger` instead. With at least one button both raise.
- `KeyboardConfig.ConfigOutcome`: the same non-integer `row_width` case. With no buttons the model gives `Failure(RowWidthNotInteger(w))` where the source returns a keyboard holding `w`; with at least one button both fail.
- `KeyboardConfig.BoardKindOf`: every `type` value that is not a `str` is taken to have no `lower()` and gives `TypeNotString` (an `AttributeError`). Python `bytes` do have `lower()`: `type = b"inline"` lowers to `b"inline"`, which equals neither `'inline'` nor `'reply'`, so the source raises `ValueError("Unsupported keyboard type: b'inline'")`. The model has no bytes value, so it gives the `AttributeError` there instead. `KeyboardConfig.ConfigOutcome` inherits this.
- Rows are values. The model does not capture aliasing: the `KeyboardBase` dataclass keeps the caller's own list, and `row` appends to it in place (`keyboard_base.py:17`). It also does not tell tuples from lists: `InlineKeyboard.add` makes its rows tuples (`inline_keyboard.py:42`), while `KeyboardBase.add` makes lists (`keyboard_base.py:11`).
- `KeyboardConfig.CreateKeyboardFromConfig`: the `match` and `if` branches of the type selection behave identically, so the model has one. The version checks (`get_python_version`, `supports_*`) are the `matchCase` parameter of `ValidateKeyboardConfig`.
- `get_keyboard_info`: only the counting fields are modelled (`total_buttons`, `total_rows`, `has_pagination`). The type name, Python version, feature flags and the copied reply/pagination attributes are plain reads. For the `InlineKeyboard` of `inline_keyboard.py` the function raises before returning: `utils.py:126` reads `keyboard.keyboard`, but that class keeps its rows in `inline_keyboard` (`inline_keyboard.py:36-46`); it also has no `custom_locales` attribute (`utils.py:142`) and no `count_pages` before `paginate`. `KeyboardConfig.KeyboardCounts` therefore gives the counts only for rows held in a `keyboard` field, and the count-pages argument stands for what `count_pages` would hold.
- `export_keyboard_to_file`/`import_keyboard_from_file`: file I/O through json, yaml and pickle.
- `_LOCALES` flags: each flag is written as its regional-indicator pair, which is what pyrogram's `FLAG_*` constants hold.

=== FILE: buttons.dfy ===
/**
 * Buttons as the host framework receives them: the button class and the
 * keyword arguments it is constructed with, in order.
 */
module Buttons {

  import opened PyValue

  datatype ButtonKind = InlineButtonKind | ReplyButtonKind

  datatype Button = Button(kind: ButtonKind, args: seq<(string, Value)>)

  /** `InlineKeyboardButton(text=text, callback_data=callbackData)` */
  function CallbackButton(text: Value, callbackData: string): Button {
    Button(InlineButtonKind, [("text", text), ("callback_data", Str(callbackData))])
  }
}

=== FILE: config.dfy ===
/**
 * The configuration helpers: validating a keyboard description, building a
 * keyboard from one, and the counting part of the keyboard summary.
 */
module KeyboardConfig {

  import opened Wrappers
  import opened PyValue
  import opened Buttons
  import opened Layout
  import opened KeyboardBases
  import opened InlineKeyboards

  /** A configuration dictionary. */
  type Config = map<string, Value>

  /** `keyboard_type in ['inline', 'reply']`: Python equality, so only those two strings. */
  predicate TypeAccepted(v: Value) {
    v == Str("inline") || v == Str("reply")
  }

  /** `isinstance(width, int) and width >= 1` */
  predicate RowWidthAccepted(v: Value) {
    IsInt(v) && AsInt(v) >= 1
  }

  predicate TypeRejected(config: Config) {
    "type" in config && !TypeAccepted(config["type"])
  }

  predicate RowWidthRejected(config: Config) {
    "row_width" in config && !RowWidthAccepted(config["row_width"])
  }

  predicate ButtonsRejected(config: Config) {
    "buttons" in config && !config["buttons"].List?
  }

  const TYPE_PREFIX := "Invalid keyboard type: "
  const ROW_WIDTH_MESSAGE := "row_width must be a positive integer"
  const BUTTONS_MESSAGE := "buttons must be a list"

  function TypeMessage(v: Value): string {
    TYPE_PREFIX + Display(v)
  }

  /** The `match` statement: the first failing case, if any, adds its message. */
  function ValidateMatchCase(config: Config): seq<string> {
    if TypeRejected(config) then [TypeMessage(config["type"])]
    else if RowWidthRejected(config) then [ROW_WIDTH_MESSAGE]
    else if ButtonsRejected(config) then [BUTTONS_MESSAGE]
    else []
  }

  /** The `if` chain: every failing check adds its message. */
  function ValidateLegacy(config: Config): seq<string> {
    (if TypeRejected(config) then [TypeMessage(config["type"])] else []) +
    (if RowWidthRejected(config) then [ROW_WIDTH_MESSAGE] else []) +
    (if ButtonsRejected(config) then [BUTTONS_MESSAGE] else [])
  }

  /**
   * `validate_keyboard_config`; `matchCase` stands for the interpreter's
   * support of `match` statements, which picks the branch.
   */
  function ValidateKeyboardConfig(config: Config, matchCase: bool): seq<string> {
    if matchCase then ValidateMatchCase(config) else ValidateLegacy(config)
  }

  /** Which check a message comes from: 0 type, 1 row width, 2 buttons. */
  function MessageRank(m: string): int {
    if TYPE_PREFIX <= m then 0 else if m == ROW_WIDTH_MESSAGE then 1 else if m == BUTTONS_MESSAGE then 2 else 3
  }

  lemma MessageRanks(v: Value)
    ensures MessageRank(TypeMessage(v)) == 0
    ensures MessageRank(ROW_WIDTH_MESSAGE) == 1
    ensures MessageRank(BUTTONS_MESSAGE) == 2
  {
    assert ROW_WIDTH_MESSAGE[0] != TYPE_PREFIX[0];
    assert BUTTONS_MESSAGE[0] != TYPE_PREFIX[0];
  }

  /** On either branch, a configuration passes exactly when none of the three checks fails. */
  lemma ValidateEmptyIff(config: Config, matchCase: bool)
    ensures ValidateKeyboardConfig(config, matchCase) == [] <==>
      !TypeRejected(config) && !RowWidthRejected(config) && !ButtonsRejected(config)
  {
  }

  /**
   * The legacy branch reports each failing check once, in the order
   * type, row width, buttons, and nothing else: every message has one of
   * the three ranks, so the list is fixed by which checks fail.
   */
  lemma LegacyReportsEveryFailure(config: Config)
    ensures var r := ValidateLegacy(config);
      (exists i :: 0 <= i < |r| && MessageRank(r[i]) == 0) == TypeRejected(config) &&
      (ROW_WIDTH_MESSAGE in r) == RowWidthRejected(config) &&
      (BUTTONS_MESSAGE in r) == ButtonsRejected(config) &&
      (TypeRejected(config) ==> r[0] == TypeMessage(config["type"])) &&
      (forall i, j :: 0 <= i < j < |r| ==> MessageRank(r[i]) < MessageRank(r[j])) &&
      (forall i :: 0 <= i < |r| ==> MessageRank(r[i]) <= 2)
  {
    var r := ValidateLegacy(config);
    var v := if "type" in config then config["type"] else NoneValue;
    MessageRanks(v);
    assert forall i :: 0 <= i < |r| ==> MessageRank(r[i]) in {0, 1, 2};
    if TypeRejected(config) {
      assert r[0] == TypeMessage(v);
    }
    assert TypeMessage(v) != ROW_WIDTH_MESSAGE && TypeMessage(v) != BUTTONS_MESSAGE;
  }

  /** The `match` branch reports only the first failure the legacy branch reports. */
  lemma MatchCaseIsFirstLegacyError(config: Config)
    ensures var legacy := ValidateLegacy(config);
      ValidateMatchCase(config) == legacy[..Min(1, |legacy|)]
  {
  }

  /** The configurations the test suite calls valid produce no message on either branch. */
  lemma WellFormedConfigValidates(kind: string, width: int, buttons: seq<Value>, matchCase: bool)
    requires kind == "inline" || kind == "reply"
    requires width >= 1
    ensures ValidateKeyboardConfig(map["type" := Str(kind), "row_width" := Int(width), "buttons" := List(buttons)], matchCase) == []
  {
    ValidateEmptyIff(map["type" := Str(kind), "row_width" := Int(width), "buttons" := List(buttons)], matchCase);
  }

  /** Why `create_keyboard_from_config` raises. */
  datatype ConfigFailure =
    | TypeNotString(typeValue: Value)
    | UnsupportedType(typeValue: Value)
    | ButtonsNotIterable(buttons: Value)
    | RowWidthNotInteger(width: Value)
    | RowWidthZero

  /** The `ValueError` message for a type that is neither kind. */
  function UnsupportedMessage(typeValue: Value): string {
    "Unsupported keyboard type: " + Display(typeValue)
  }

  /**
   * The text of the exception each failure raises: the library's own
   * `ValueError`, or the `AttributeError`, `TypeError` or `ValueError`
   * CPython raises for `.lower()`, iteration and `range`.
   */
  function FailureMessage(f: ConfigFailure): string {
    match f
    case TypeNotString(t) => "'" + TypeName(t) + "' object has no attribute 'lower'"
    case UnsupportedType(t) => UnsupportedMessage(t)
    case ButtonsNotIterable(b) => "'" + TypeName(b) + "' object is not iterable"
    case RowWidthNotInteger(w) => "'" + TypeName(w) + "' object cannot be interpreted as an integer"
    case RowWidthZero => "range() arg 3 must not be zero"
  }

  datatype BoardKind = InlineBoard | ReplyBoard

  /** `str.lower()` on one character of A to Z; every other character is kept. */
  function LowerChar(c: char): char {
    if 'A' <= c <= 'Z' then (c as int + 32) as char else c
  }

  /** `str.lower()` on the letters A to Z. */
  function AsciiLower(s: string): string {
    seq(|s|, k requires 0 <= k < |s| => LowerChar(s[k]))
  }

  /** `config.get('type', 'inline')` */
  function KeyboardType(config: Config): Value {
    if "type" in config then config["type"] else Str("inline")
  }

  /** The keyboard class, chosen on the lower-cased type. */
  function BoardKindOf(config: Config): Result<BoardKind, ConfigFailure> {
    var t := KeyboardType(config);
    if !t.Str? then Failure(TypeNotString(t))
    else if AsciiLower(t.s) == "inline" then Success(InlineBoard)
    else if AsciiLower(t.s) == "reply" then Success(ReplyBoard)
    else Failure(UnsupportedType(t))
  }

  /** The button class, chosen on the type exactly as written. */
  function ButtonKindOf(config: Config): ButtonKind {
    if KeyboardType(config) == Str("inline") then InlineButtonKind else ReplyButtonKind
  }

  /** `config.get('buttons', [])` */
  function ButtonsValue(config: Config): Value {
    if "buttons" in config then config["buttons"] else List([])
  }

  /** What `for button_config in buttons` visits: list items, the characters of a string, the keys of a dict. */
  function Iterate(v: Value): Option<seq<Value>> {
    match v
    case List(items) => Some(items)
    case Str(s) => Some(seq(|s|, k requires 0 <= k < |s| => Str([s[k]])))
    case Dict(entries) => Some(seq(|entries|, k requires 0 <= k < |entries| => Str(entries[k].0)))
    case _ => None
  }

  /** A dict entry gives the button's keyword arguments; anything else its text, through `str()`. */
  function MakeButton(kind: ButtonKind, item: Value): Button {
    if item.Dict? then Button(kind, item.entries) else Button(kind, [("text", Str(Display(item)))])
  }

  /** The row width the keyboard holds: the configured integer, or the default 3. */
  function ConfiguredWidth(config: Config): int
    requires "row_width" in config ==> IsInt(config["row_width"])
  {
    if "row_width" in config then AsInt(config["row_width"]) else 3
  }

  /** The button built from each visited item, in order. */
  function MakeButtons(kind: ButtonKind, items: seq<Value>): seq<Button> {
    seq(|items|, k requires 0 <= k < |items| => MakeButton(kind, items[k]))
  }

  /** The rows left after adding each button on its own with width `w`. */
  function LastButtonRows(buttons: seq<Button>, w: int): seq<seq<Button>> {
    if |buttons| == 0 || w < 0 then [] else [[buttons[|buttons| - 1]]]
  }

  /** The keyboard a configuration yields: its class, row width and rows. */
  datatype Built = Built(kind: BoardKind, rowWidth: int, rows: seq<seq<Button>>)

  /**
   * The outcome of `create_keyboard_from_config`. Each button goes through
   * its own `add`, which replaces the rows, so only the last button is
   * left, alone in its row (none at all for a negative width).
   */
  function ConfigOutcome(config: Config): Result<Built, ConfigFailure> {
    match BoardKindOf(config)
    case Failure(f) => Failure(f)
    case Success(kind) =>
      match Iterate(ButtonsValue(config))
      case None => Failure(ButtonsNotIterable(ButtonsValue(config)))
      case Some(items) =>
        if "row_width" in config && !IsInt(config["row_width"]) then Failure(RowWidthNotInteger(config["row_width"]))
        else
          var w := ConfiguredWidth(config);
          if |items| > 0 && w == 0 then Failure(RowWidthZero)
          else Success(Built(kind, w, LastButtonRows(MakeButtons(ButtonKindOf(config), items), w)))
  }

  /**
   * `row_width` is copied into the keyboard without validation: a present
   * integer is kept as given, zero included when there is nothing to add and
   * widths below 1 included, and an absent one leaves the default 3.
   */
  lemma RowWidthCopiedUnchecked(config: Config)
    requires BoardKindOf(config).Success? && Iterate(ButtonsValue(config)).Some?
    ensures ("row_width" in config && IsInt(config["row_width"]) &&
             (AsInt(config["row_width"]) != 0 || |Iterate(ButtonsValue(config)).value| == 0)) ==>
        ConfigOutcome(config).Success? &&
        ConfigOutcome(config).value.kind == BoardKindOf(config).value &&
        ConfigOutcome(config).value.rowWidth == AsInt(config["row_width"])
    ensures "row_width" !in config ==>
      ConfigOutcome(config).Success? &&
      ConfigOutcome(config).value.kind == BoardKindOf(config).value &&
      ConfigOutcome(config).value.rowWidth == 3
  {
  }

  /**
   * A width that validation rejects still builds: `{"row_width": -2,
   * "buttons": ["a"]}` gives an inline keyboard of width -2 with no rows.
   */
  lemma NegativeWidthBuilds()
    ensures var config := map["row_width" := Int(-2), "buttons" := List([Str("a")])];
      ValidateKeyboardConfig(config, false) == [ROW_WIDTH_MESSAGE] &&
      ValidateKeyboardConfig(config, true) == [ROW_WIDTH_MESSAGE] &&
      ConfigOutcome(config) == Success(Built(InlineBoard, -2, []))
  {
    var config := map["row_width" := Int(-2), "buttons" := List([Str("a")])];
    assert KeyboardType(config) == Str("inline");
    assert AsciiLower("inline") == "inline";
  }

  /** A keyboard object of either class. */
  datatype Keyboard = InlineResult(inline: InlineKeyboard) | ReplyResult(reply: KeyboardBase<Button>)

  /** Adds each button on its own, as the loop of `create_keyboard_from_config` does. */
  method AddEachInline(kb: InlineKeyboard, buttons: seq<Button>)
    requires kb.rowWidth != 0
    modifies kb
    ensures kb.rowWidth == old(kb.rowWidth) && kb.pageState == old(kb.pageState)
    ensures kb.inlineKeyboard == if |buttons| == 0 then old(kb.inlineKeyboard) else Slices([buttons[|buttons| - 1]], kb.rowWidth)
  {
    var i := 0;
    while i < |buttons|
      invariant 0 <= i <= |buttons|
      invariant kb.rowWidth == old(kb.rowWidth) && kb.pageState == old(kb.pageState)
      invariant kb.inlineKeyboard == if i == 0 then old(kb.inlineKeyboard) else Slices([buttons[i - 1]], kb.rowWidth)
    {
      kb.Add([buttons[i]]);
      i := i + 1;
    }
  }

  method AddEachReply(kb: KeyboardBase<Button>, buttons: seq<Button>)
    requires kb.rowWidth != 0
    modifies kb
    ensures kb.rowWidth == old(kb.rowWidth)
    ensures kb.keyboard == if |buttons| == 0 then old(kb.keyboard) else Slices([buttons[|buttons| - 1]], kb.rowWidth)
  {
    var i := 0;
    while i < |buttons|
      invariant 0 <= i <= |buttons|
      invariant kb.rowWidth == old(kb.rowWidth)
      invariant kb.keyboard == if i == 0 then old(kb.keyboard) else Slices([buttons[i - 1]], kb.rowWidth)
    {
      kb.Add([buttons[i]]);
      i := i + 1;
    }
  }

  /** One width-`w` row per button added alone: the button itself, or nothing for a negative width. */
  lemma SingleSlice(b: Button, w: int)
    requires w != 0
    ensures Slices([b], w) == if w < 0 then [] else [[b]]
  {
    if w > 0 {
      assert Min(w, 1) == 1;
      assert [b][..1] == [b] && [b][1..] == [];
      assert Chunk([b], w) == [[b]] + Chunk([], w);
    }
  }

  /** A fresh inline keyboard given width `w`, then each button through `add`. */
  method NewInlineWith(w: int, buttons: seq<Button>) returns (kb: InlineKeyboard)
    requires |buttons| > 0 ==> w != 0
    ensures fresh(kb) && kb.rowWidth == w && kb.inlineKeyboard == LastButtonRows(buttons, w) && kb.pageState == None
  {
    kb := new InlineKeyboard();
    kb.rowWidth := w;
    if |buttons| > 0 {
      SingleSlice(buttons[|buttons| - 1], w);
      AddEachInline(kb, buttons);
    }
  }

  /** A fresh reply keyboard given width `w`, then each button through `add`. */
  method NewReplyWith(w: int, buttons: seq<Button>) returns (kb: KeyboardBase<Button>)
    requires |buttons| > 0 ==> w != 0
    ensures fresh(kb) && kb.rowWidth == w && kb.keyboard == LastButtonRows(buttons, w)
  {
    kb := new KeyboardBase<Button>();
    kb.rowWidth := w;
    if |buttons| > 0 {
      SingleSlice(buttons[|buttons| - 1], w);
      AddEachReply(kb, buttons);
    }
  }

  /** `create_keyboard_from_config` */
  method CreateKeyboardFromConfig(config: Config) returns (r: Result<Keyboard, ConfigFailure>)
    ensures r.Failure? <==> ConfigOutcome(config).Failure?
    ensures r.Failure? ==> r.error == ConfigOutcome(config).error
    ensures r.Success? ==> ConfigOutcome(config).Success?
    ensures r.Success? && r.value.InlineResult? ==>
      var built, kb := ConfigOutcome(config).value, r.value.inline;
      built.kind == InlineBoard && fresh(kb) && kb.rowWidth == built.rowWidth && kb.inlineKeyboard == built.rows &&
      kb.pageState == None
    ensures r.Success? && r.value.ReplyResult? ==>
      var built, kb := ConfigOutcome(config).value, r.value.reply;
      built.kind == ReplyBoard && fresh(kb) && kb.rowWidth == built.rowWidth && kb.keyboard == built.rows
  {
    var kind := BoardKindOf(config);
    if kind.Failure? {
      return Failure(kind.error);
    }
    var items := Iterate(ButtonsValue(config));
    if items.None? {
      return Failure(ButtonsNotIterable(ButtonsValue(config)));
    }
    if "row_width" in config && !IsInt(config["row_width"]) {
      return Failure(RowWidthNotInteger(config["row_width"]));
    }
    var w := ConfiguredWidth(config);
    var buttons := MakeButtons(ButtonKindOf(config), items.value);
    if |buttons| > 0 && w == 0 {
      // range() rejects the zero step at the first add
      return Failure(RowWidthZero);
    }
    if kind.value == InlineBoard {
      var kb := NewInlineWith(w, buttons);
      r := Success(InlineResult(kb));
    } else {
      var kb := NewReplyWith(w, buttons);
      r := Success(ReplyResult(kb));
    }
  }

  /** The lower-case forms the examples below rely on. */
  lemma LowerKinds()
    ensures AsciiLower("INLINE") == "inline" && AsciiLower("inline") == "inline"
  {
    var up, low := AsciiLower("INLINE"), AsciiLower("inline");
    assert forall k :: 0 <= k < 6 ==> up[k] == "inline"[k];
    assert forall k :: 0 <= k < 6 ==> low[k] == "inline"[k];
  }

  /** `"INLINE"` selects the inline keyboard class but the reply button class. */
  lemma KindAndButtonClassDiffer(buttons: seq<Value>)
    requires |buttons| > 0
    ensures var out := ConfigOutcome(map["type" := Str("INLINE"), "buttons" := List(buttons)]);
      out.Success? && out.value.kind == InlineBoard && |out.value.rows| == 1 &&
      out.value.rows[0] == [MakeButton(ReplyButtonKind, buttons[|buttons| - 1])]
  {
    var config := map["type" := Str("INLINE"), "buttons" := List(buttons)];
    LowerKinds();
    assert BoardKindOf(config) == Success(InlineBoard);
    assert ButtonKindOf(config) == ReplyButtonKind;
    assert Iterate(ButtonsValue(config)) == Some(buttons);
    assert ConfiguredWidth(config) == 3;
  }

  /**
   * A built keyboard holds at most one row, and when it holds one, that
   * row is the last configured button alone.
   */
  lemma OnlyLastButtonKept(config: Config)
    requires ConfigOutcome(config).Success?
    ensures var built := ConfigOutcome(config).value;
      var items := Iterate(ButtonsValue(config)).value;
      |built.rows| <= 1 &&
      (|built.rows| == 1 <==> |items| > 0 && built.rowWidth >= 1) &&
      (|built.rows| == 1 ==> built.rows[0] == [MakeButton(ButtonKindOf(config), items[|items| - 1])])
  {
  }

  /** Without a `type`, the keyboard is inline with inline buttons. */
  lemma TypeDefaultsToInline(config: Config)
    requires "type" !in config
    ensures BoardKindOf(config) == Success(InlineBoard) && ButtonKindOf(config) == InlineButtonKind
  {
    LowerKinds();
  }

  /** The class is chosen on the type regardless of letter case; anything else is unsupported. */
  lemma TypeCaseInsensitive(config: Config)
    requires KeyboardType(config).Str?
    ensures var t := AsciiLower(KeyboardType(config).s);
      BoardKindOf(config) ==
        if t == "inline" then Success(InlineBoard)
        else if t == "reply" then Success(ReplyBoard)
        else Failure(UnsupportedType(KeyboardType(config)))
  {
  }

  /**
   * A string type that lowers to neither kind raises the `ValueError`
   * before any button is read, and its message quotes the type as given.
   */
  lemma UnsupportedTypeRaises(config: Config)
    requires KeyboardType(config).Str?
    requires AsciiLower(KeyboardType(config).s) != "inline" && AsciiLower(KeyboardType(config).s) != "reply"
    ensures ConfigOutcome(config) == Failure(UnsupportedType(KeyboardType(config)))
    ensures FailureMessage(ConfigOutcome(config).error) == "Unsupported keyboard type: " + KeyboardType(config).s
  {
  }

  /** The counting fields of `get_keyboard_info`. */
  datatype Counts = Counts(totalButtons: nat, totalRows: nat, hasPagination: bool)

  /** `sum(len(row) for row in rows)` */
  function SumLengths<T>(rows: seq<seq<T>>): (n: nat)
    ensures n == |Flatten(rows)|
  {
    if |rows| == 0 then 0 else |rows[0]| + SumLengths(rows[1..])
  }

  function KeyboardCounts<T>(rows: seq<seq<T>>, countPages: int): Counts {
    Counts(SumLengths(rows), |rows|, countPages > 0)
  }

  /** After `add(b1, ..., bn)` with a positive width, the summary counts n buttons in ceil(n / w) rows. */
  lemma CountsAfterAdd<T>(args: seq<T>, w: int, countPages: int)
    requires w >= 1
    ensures var c := KeyboardCounts(Slices(args, w), countPages);
      c.totalButtons == |args| && (c.totalRows - 1) * w < |args| <= c.totalRows * w &&
      c.hasPagination == (countPages > 0)
  {
    ChunkFlatten(args, w);
    ChunkCount(args, w);
  }
}

=== FILE: errors.dfy ===
/** The library's exception hierarchy: each error's code, stored fields and message. */
module Errors {

  import opened Wrappers
  import opened PyValue

  /** One constructor per exception class, holding its constructor's arguments. */
  datatype KeyboardError =
    | PyKeyboardError(message: string)
    | ValidationError(field: string, value: Value, expected: Option<string>, reasonArg: Option<string>)
    | PaginationError(param: string, value: Value, reason: string)
    | PaginationUnchangedError(source: string)
    | LocaleError(param: string, value: Value, reason: string)
    | ConfigurationError(setting: string, value: Value, reason: string)

  /** `LocaleError(param)`: `value` defaults to `None` and `reason` to the empty string. */
  function DefaultLocaleError(param: string): (e: KeyboardError)
    ensures e.LocaleError? && e.value == NoneValue
    ensures ErrorCode(e) == "LOCALE_ERROR" && Message(e) == "Invalid locale param '" + param + "': "
  {
    LocaleError(param, NoneValue, "")
  }

  /** `ValidationError(field)` with every optional argument left out. */
  function DefaultValidationError(field: string): (e: KeyboardError)
    ensures e.ValidationError? && e.value == NoneValue
    ensures ErrorCode(e) == "VALIDATION_ERROR" && Message(e) == "Validation failed for '" + field + "'"
  {
    ValidationError(field, NoneValue, None, None)
  }

  /** The exception classes that carry their own `error_code`. */
  datatype Family = BaseFamily | ValidationFamily | PaginationFamily | LocaleFamily | ConfigurationFamily

  /** The nearest class of `e` that sets `error_code`. */
  function FamilyOf(e: KeyboardError): Family {
    match e
    case PyKeyboardError(_) => BaseFamily
    case ValidationError(_, _, _, _) => ValidationFamily
    case PaginationError(_, _, _) => PaginationFamily
    case PaginationUnchangedError(_) => PaginationFamily
    case LocaleError(_, _, _) => LocaleFamily
    case ConfigurationError(_, _, _) => ConfigurationFamily
  }

  /** `isinstance(e, PaginationError)` */
  predicate IsPaginationError(e: KeyboardError) {
    e.PaginationError? || e.PaginationUnchangedError?
  }

  /** The class attribute `error_code`; `PaginationUnchangedError` inherits its parent's. */
  function ErrorCode(e: KeyboardError): string {
    match e
    case PyKeyboardError(_) => "PYKEYBOARD_ERROR"
    case ValidationError(_, _, _, _) => "VALIDATION_ERROR"
    case PaginationError(_, _, _) => "PAGINATION_ERROR"
    case PaginationUnchangedError(_) => "PAGINATION_ERROR"
    case LocaleError(_, _, _) => "LOCALE_ERROR"
    case ConfigurationError(_, _, _) => "CONFIG_ERROR"
  }

  /** A Python `Optional[str]` taken as a condition: set and non-empty. */
  predicate Truthy(s: Option<string>) {
    s.Some? && s.value != ""
  }

  /** The `param`, `value` and `reason` a pagination error stores. */
  function PaginationFields(e: KeyboardError): (string, Value, string)
    requires IsPaginationError(e)
  {
    match e
    case PaginationError(param, value, reason) => (param, value, reason)
    case PaginationUnchangedError(source) => ("keyboard_state", Str(source), "unchanged since last call")
  }

  /** The message `ValidationError` builds: the reason first, else what was expected. */
  function ValidationMessage(field: string, value: Value, expected: Option<string>, reason: Option<string>): string {
    var head := "Validation failed for '" + field + "'";
    if Truthy(reason) then head + ": " + reason.value
    else if Truthy(expected) then head + ": expected " + expected.value + ", got " + TypeName(value)
    else head
  }

  /** The `message` attribute, computed by each constructor from its arguments. */
  function Message(e: KeyboardError): string {
    match e
    case PyKeyboardError(message) => message
    case ValidationError(field, value, expected, reason) => ValidationMessage(field, value, expected, reason)
    case PaginationError(_, _, _) =>
      var (param, _, reason) := PaginationFields(e);
      "Invalid pagination param '" + param + "': " + reason
    case PaginationUnchangedError(_) =>
      var (param, _, reason) := PaginationFields(e);
      "Invalid pagination param '" + param + "': " + reason
    case LocaleError(param, _, reason) => "Invalid locale param '" + param + "': " + reason
    case ConfigurationError(setting, _, reason) => "Invalid configuration '" + setting + "': " + reason
  }

  /** `str(e)`: the code in brackets, a space, then the message. */
  function Text(e: KeyboardError): string {
    "[" + ErrorCode(e) + "] " + Message(e)
  }

  /** The position of the first `c` in `s`, if any. */
  function IndexOf(s: string, c: char): (r: Option<nat>)
    ensures r.Some? ==> r.value < |s| && s[r.value] == c && forall k :: 0 <= k < r.value ==> s[k] != c
    ensures r.None? ==> forall k :: 0 <= k < |s| ==> s[k] != c
  {
    if |s| == 0 then None
    else if s[0] == c then Some(0)
    else match IndexOf(s[1..], c)
      case None => None
      case Some(k) => Some(k + 1)
  }

  /** Reads `"[code] message"` back into its code and message. */
  function SplitText(s: string): Option<(string, string)> {
    if |s| == 0 || s[0] != '[' then None
    else
      match IndexOf(s[1..], ']')
      case None => None
      case Some(k) =>
        var rest := s[k + 2..];
        if |rest| == 0 || rest[0] != ' ' then None else Some((s[1..k + 1], rest[1..]))
  }

  /** A bracketed code without `]` and the text after it can be read back. */
  lemma SplitJoin(code: string, message: string)
    requires forall k :: 0 <= k < |code| ==> code[k] != ']'
    ensures SplitText("[" + code + "] " + message) == Some((code, message))
  {
    var tail := "] " + message;
    var s := "[" + code + tail;
    assert s == "[" + code + "] " + message;
    assert s[1..] == code + tail;
    assert s[1..][|code|] == ']';
    assert forall k :: 0 <= k < |code| ==> s[1..][k] == code[k];
    assert IndexOf(s[1..], ']') == Some(|code|);
    assert s[1..|code| + 1] == code;
    assert s[|code| + 2..] == " " + message;
  }

  /**
   * `str(e)` keeps the code and the message apart: both can be read back
   * from it, whatever the message holds.
   */
  lemma TextRoundTrip(e: KeyboardError)
    ensures SplitText(Text(e)) == Some((ErrorCode(e), Message(e)))
  {
    var code := ErrorCode(e);
    assert forall k :: 0 <= k < |code| ==> code[k] != ']';
    SplitJoin(code, Message(e));
  }

  /** Each class has its fixed code, and equal codes mean the same class family. */
  lemma ErrorCodes(e: KeyboardError, f: KeyboardError)
    ensures ErrorCode(e) == "PAGINATION_ERROR" <==> IsPaginationError(e)
    ensures ErrorCode(e) == "VALIDATION_ERROR" <==> e.ValidationError?
    ensures ErrorCode(e) == "LOCALE_ERROR" <==> e.LocaleError?
    ensures ErrorCode(e) == "CONFIG_ERROR" <==> e.ConfigurationError?
    ensures ErrorCode(e) == "PYKEYBOARD_ERROR" <==> e.PyKeyboardError?
    ensures ErrorCode(e) == ErrorCode(f) <==> FamilyOf(e) == FamilyOf(f)
  {
  }

  /**
   * A `PaginationUnchangedError` is the `PaginationError` for the
   * `keyboard_state` parameter with its source as the value.
   */
  lemma UnchangedIsPaginationError(source: string)
    ensures IsPaginationError(PaginationUnchangedError(source))
    ensures PaginationFields(PaginationUnchangedError(source)) ==
      PaginationFields(PaginationError("keyboard_state", Str(source), "unchanged since last call"))
    ensures Message(PaginationUnchangedError(source)) ==
      Message(PaginationError("keyboard_state", Str(source), "unchanged since last call"))
    ensures ErrorCode(PaginationUnchangedError(source)) == "PAGINATION_ERROR"
  {
  }

  /**
   * Every validation message names the field; it says more only when a
   * non-empty `reason` (first) or `expected` (second) is given.
   */
  lemma ValidationMessagePriority(field: string, value: Value, expected: Option<string>, reason: Option<string>)
    ensures var m := Message(ValidationError(field, value, expected, reason));
      var head := "Validation failed for '" + field + "'";
      head <= m &&
      (m == head <==> !Truthy(reason) && !Truthy(expected)) &&
      (Truthy(reason) ==> m == head + ": " + reason.value) &&
      (!Truthy(reason) && Truthy(expected) ==> m == head + ": expected " + expected.value + ", got " + TypeName(value))
  {
  }

  /**
   * The parameter errors name the parameter (or setting) in quotes, then
   * give the reason after a colon.
   */
  lemma ParameterMessages(name: string, value: Value, reason: string)
    ensures Message(PaginationError(name, value, reason)) == "Invalid pagination param '" + name + "': " + reason
    ensures Message(LocaleError(name, value, reason)) == "Invalid locale param '" + name + "': " + reason
    ensures Message(ConfigurationError(name, value, reason)) == "Invalid configuration '" + name + "': " + reason
  {
  }
}

=== FILE: format.dfy ===
/**
 * Callback patterns and the single-keyword use of Python's `str.format`
 * that the keyboards make: `pattern.format(number=...)` and
 * `pattern.format(locale=...)`.
 */
module Format {

  import opened Wrappers

  /**
   * A pattern is split into literal text (with `{{`/`}}` already read as
   * single braces) and replacement fields, each named by what stands between
   * its braces (`{}` has the empty name).
   */
  datatype Segment = Lit(text: string) | Field(name: string)

  type Pattern = seq<Segment>

  /** Every replacement field of `p` is `{key}`. */
  predicate OnlyField(p: Pattern, key: string) {
    forall k :: 0 <= k < |p| ==> p[k].Field? ==> p[k].name == key
  }

  /** `p` has no replacement field at all. */
  predicate NoFields(p: Pattern) {
    forall k :: 0 <= k < |p| ==> p[k].Lit?
  }

  /**
   * `p.format(key=value)`: every `{key}` becomes `value`; any other field
   * raises (`KeyError` for another name, `IndexError` for a positional one),
   * which is `None` here.
   */
  function FormatWith(p: Pattern, key: string, value: string): (r: Option<string>)
    ensures r.Some? <==> OnlyField(p, key)
  {
    if |p| == 0 then Some("")
    else
      match FormatWith(p[1..], key, value)
      case None => None
      case Some(rest) =>
        match p[0]
        case Lit(text) => Some(text + rest)
        case Field(name) => if name == key then Some(value + rest) else None
  }

  /** The literal text of a pattern without fields. */
  function LiteralText(p: Pattern): string
    requires NoFields(p)
  {
    if |p| == 0 then "" else p[0].text + LiteralText(p[1..])
  }

  /** A pattern with no field formats to its own text, whatever the keyword and value. */
  lemma {:induction false} FormatNoFields(p: Pattern, key: string, value: string)
    requires NoFields(p)
    ensures FormatWith(p, key, value) == Some(LiteralText(p))
  {
    if |p| > 0 {
      FormatNoFields(p[1..], key, value);
    }
  }
}

=== FILE: inline_keyboard.dfy ===
/**
 * `InlineKeyboard`: rows of callback buttons, the pagination row and the
 * language picker.
 */
module InlineKeyboards {

  import opened Wrappers
  import opened PyValue
  import opened Format
  import opened Buttons
  import opened Layout
  import opened Pagination

  /** `count_pages`, `current_page` and `callback_pattern`, set together by `paginate`. */
  datatype PageState = PageState(countPages: int, currentPage: int, callbackPattern: Pattern)

  /** The regional-indicator pair that draws the flag of a two-letter country code. */
  function Flag(country: string): string
    requires |country| == 2 && 'A' <= country[0] <= 'Z' && 'A' <= country[1] <= 'Z'
  {
    [(0x1F1E6 + (country[0] as int - 'A' as int)) as char,
     (0x1F1E6 + (country[1] as int - 'A' as int)) as char]
  }

  /** `_LOCALES`: locale code to flag and language name. */
  function Locales(): map<string, string> {
    map[
      "be_BY" := Flag("BY") + " Беларуская",
      "de_DE" := Flag("DE") + " Deutsch",
      "zh_CN" := Flag("CN") + " 中文",
      "en_US" := Flag("GB") + "  English",
      "fr_FR" := Flag("FR") + " Français",
      "id_ID" := Flag("ID") + " Bahasa Indonesia",
      "it_IT" := Flag("IT") + " Italiano",
      "ko_KR" := Flag("KR") + " 한국어",
      "tr_TR" := Flag("TR") + " Türkçe",
      "ru_RU" := Flag("RU") + " Русский",
      "es_ES" := Flag("ES") + " Español",
      "uk_UA" := Flag("UA") + " Українська",
      "uz_UZ" := Flag("UZ") + " Oʻzbekcha"
    ]
  }

  /** `_LOCALES.get(code, "Invalid locale")` */
  function LocaleLabel(code: string): string {
    if code in Locales() then Locales()[code] else "Invalid locale"
  }

  /** The `locales` argument: a list of codes, or anything else, which is wrapped in a list. */
  datatype LocaleArg = LocaleList(codes: seq<string>) | OneLocale(code: string)

  function LocaleCodes(locales: LocaleArg): seq<string> {
    match locales
    case LocaleList(codes) => codes
    case OneLocale(code) => [code]
  }

  /**
   * One button per code, in order: the code's label and the pattern with
   * `{locale}` replaced by the code. `None` when the comprehension raises.
   */
  function LocaleButtons(pattern: Pattern, codes: seq<string>): (r: Option<seq<Button>>)
    ensures r.Some? <==> (|codes| == 0 || OnlyField(pattern, "locale"))
    ensures r.Some? ==>
      |r.value| == |codes| &&
      forall i :: 0 <= i < |codes| ==>
        r.value[i] == CallbackButton(Str(LocaleLabel(codes[i])), FormatWith(pattern, "locale", codes[i]).value)
  {
    if |codes| == 0 then Some([])
    else
      match FormatWith(pattern, "locale", codes[0])
      case None => None
      case Some(callbackData) =>
        match LocaleButtons(pattern, codes[1..])
        case None => None
        case Some(rest) => Some([CallbackButton(Str(LocaleLabel(codes[0])), callbackData)] + rest)
  }

  /**
   * Read row by row, the language picker lists every code in the order
   * given, duplicates and unknown codes included, each with its label.
   */
  lemma LanguagesInOrder(pattern: Pattern, codes: seq<string>, rowWidth: int)
    requires rowWidth >= 1 && OnlyField(pattern, "locale")
    ensures var rows := Slices(LocaleButtons(pattern, codes).value, rowWidth);
      var buttons := Flatten(rows);
      |buttons| == |codes| &&
      (|rows| - 1) * rowWidth < |codes| <= |rows| * rowWidth &&
      forall i :: 0 <= i < |codes| ==> buttons[i] == CallbackButton(Str(LocaleLabel(codes[i])), FormatWith(pattern, "locale", codes[i]).value)
  {
    var buttons := LocaleButtons(pattern, codes).value;
    ChunkFlatten(buttons, rowWidth);
    ChunkCount(buttons, rowWidth);
  }

  /** A pattern without `{locale}` is used unchanged as every button's callback. */
  lemma LanguagesLiteralPattern(pattern: Pattern, codes: seq<string>)
    requires NoFields(pattern)
    ensures var r := LocaleButtons(pattern, codes);
      r.Some? && forall i :: 0 <= i < |codes| ==> r.value[i].args[1] == ("callback_data", Str(LiteralText(pattern)))
  {
    forall code: string {
      FormatNoFields(pattern, "locale", code);
    }
  }

  /**
   * A lone code becomes a one-element list, so the picker is one row
   * holding one button, whatever the row width; it fails exactly when the
   * pattern has a field other than `{locale}`.
   */
  lemma LoneLocaleOneButton(pattern: Pattern, code: string, rowWidth: int)
    requires rowWidth >= 1
    ensures var r := LocaleButtons(pattern, LocaleCodes(OneLocale(code)));
      (r.Some? <==> OnlyField(pattern, "locale")) &&
      (r.Some? ==>
        Slices(r.value, rowWidth) == [[CallbackButton(Str(LocaleLabel(code)), FormatWith(pattern, "locale", code).value)]])
  {
    var r := LocaleButtons(pattern, [code]);
    if r.Some? {
      assert Min(rowWidth, 1) == 1;
      assert r.value[..1] == r.value && r.value[1..] == [];
      assert Chunk(r.value, rowWidth) == [r.value[..1]] + Chunk(r.value[1..], rowWidth);
    }
  }

  class InlineKeyboard {
    var rowWidth: int
    var inlineKeyboard: seq<seq<Button>>
    var pageState: Option<PageState>

    /** `InlineKeyboard(row_width)`; the pagination fields do not exist until `paginate`. */
    constructor (rowWidth: int := 3)
      ensures this.rowWidth == rowWidth && inlineKeyboard == [] && pageState == None
    {
      this.rowWidth := rowWidth;
      inlineKeyboard := [];
      pageState := None;
    }

    /** Replaces every row with `args` laid out `rowWidth` to a row. */
    method Add(args: seq<Button>)
      requires rowWidth != 0
      modifies this`inlineKeyboard
      ensures inlineKeyboard == Slices(args, rowWidth)
    {
      inlineKeyboard := Slices(args, rowWidth);
    }

    /** Appends `args` as one more row. */
    method Row(args: seq<Button>)
      modifies this`inlineKeyboard
      ensures inlineKeyboard == old(inlineKeyboard) + [args]
    {
      inlineKeyboard := inlineKeyboard + [args];
    }

    /**
     * Records the pagination state, then appends the window as one more
     * row. When the pattern cannot be formatted the state is recorded
     * and the rows are left alone (`formatted` is false).
     */
    method Paginate(countPages: int, currentPage: int, callbackPattern: Pattern) returns (formatted: bool)
      modifies this`inlineKeyboard, this`pageState
      ensures pageState == Some(PageState(countPages, currentPage, callbackPattern))
      ensures formatted == PaginationRow(countPages, currentPage, callbackPattern).Some?
      ensures inlineKeyboard ==
        if formatted then old(inlineKeyboard) + [PaginationRow(countPages, currentPage, callbackPattern).value]
        else old(inlineKeyboard)
    {
      pageState := Some(PageState(countPages, currentPage, callbackPattern));
      var row := PaginationRow(countPages, currentPage, callbackPattern);
      formatted := row.Some?;
      if formatted {
        inlineKeyboard := inlineKeyboard + [row.value];
      }
    }

    /**
     * Replaces every row with one button per locale code, laid out
     * `rowWidth` (the argument, not the field) to a row.
     */
    method Languages(callbackPattern: Pattern, locales: LocaleArg, rowWidth: int := 2) returns (formatted: bool)
      requires rowWidth != 0
      modifies this`inlineKeyboard
      ensures formatted == LocaleButtons(callbackPattern, LocaleCodes(locales)).Some?
      ensures inlineKeyboard ==
        if formatted then Slices(LocaleButtons(callbackPattern, LocaleCodes(locales)).value, rowWidth)
        else old(inlineKeyboard)
    {
      var buttons := LocaleButtons(callbackPattern, LocaleCodes(locales));
      formatted := buttons.Some?;
      if formatted {
        inlineKeyboard := Slices(buttons.value, rowWidth);
      }
    }
  }
}

=== FILE: keyboard_base.dfy ===
/** `KeyboardBase`: a row width and the rows of buttons laid out with it. */
module KeyboardBases {

  import opened Layout

  class KeyboardBase<T> {
    var rowWidth: int
    var keyboard: seq<seq<T>>

    /** `KeyboardBase(row_width=..., keyboard=...)`, with the dataclass defaults 3 and no rows. */
    constructor (rowWidth: int := 3, keyboard: seq<seq<T>> := [])
      ensures this.rowWidth == rowWidth && this.keyboard == keyboard
    {
      this.rowWidth := rowWidth;
      this.keyboard := keyboard;
    }

    /** Replaces every row with `args` laid out `rowWidth` to a row. */
    method Add(args: seq<T>)
      requires rowWidth != 0
      modifies this`keyboard
      ensures keyboard == Slices(args, rowWidth)
    {
      keyboard := Slices(args, rowWidth);
    }

    /** Appends `args` as one more row, leaving the earlier rows as they were. */
    method Row(args: seq<T>)
      modifies this`keyboard
      ensures keyboard == old(keyboard) + [args]
    {
      keyboard := keyboard + [args];
    }
  }
}

=== FILE: layout.dfy ===
/**
 * The row layout shared by `KeyboardBase.add`, `InlineKeyboard.add` and
 * `InlineKeyboard.languages`: `[xs[i:i + w] for i in range(0, len(xs), w)]`.
 */
module Layout {

  function Min(a: int, b: int): int {
    if a <= b then a else b
  }

  /** Consecutive slices of `w` elements; the last one takes what is left. */
  function Chunk<T>(xs: seq<T>, w: nat): seq<seq<T>>
    requires w >= 1
    decreases |xs|
  {
    if |xs| == 0 then []
    else
      var k := Min(w, |xs|);
      [xs[..k]] + Chunk(xs[k..], w)
  }

  /**
   * The comprehension for any integer step: `range` raises for a zero step
   * (hence the precondition) and is empty for a negative one.
   */
  function Slices<T>(xs: seq<T>, w: int): seq<seq<T>>
    requires w != 0
  {
    if w < 0 then [] else Chunk(xs, w)
  }

  /** The rows read one after the other. */
  function Flatten<T>(rows: seq<seq<T>>): seq<T> {
    if |rows| == 0 then [] else rows[0] + Flatten(rows[1..])
  }

  /** Reading the rows back gives the buttons in their original order. */
  lemma {:induction false} ChunkFlatten<T>(xs: seq<T>, w: nat)
    requires w >= 1
    ensures Flatten(Chunk(xs, w)) == xs
    decreases |xs|
  {
    if |xs| > 0 {
      var k := Min(w, |xs|);
      ChunkFlatten(xs[k..], w);
      assert xs[..k] + xs[k..] == xs;
    }
  }

  /**
   * There are `ceil(n / w)` rows: the least count whose `w`-wide rows hold
   * all `n` buttons.
   */
  lemma {:induction false} ChunkCount<T>(xs: seq<T>, w: nat)
    requires w >= 1
    ensures (|Chunk(xs, w)| - 1) * w < |xs| <= |Chunk(xs, w)| * w
    decreases |xs|
  {
    if |xs| > w {
      var r := |Chunk(xs[w..], w)|;
      ChunkCount(xs[w..], w);
      MulSucc(r, w);
    }
  }

  lemma MulSucc(r: int, w: int)
    ensures (r + 1) * w == r * w + w
  {
  }

  /** Every row is full except the last, which holds between 1 and `w` buttons. */
  lemma {:induction false} ChunkRowSizes<T>(xs: seq<T>, w: nat)
    requires w >= 1
    ensures var rows := Chunk(xs, w);
      (forall k :: 0 <= k < |rows| - 1 ==> |rows[k]| == w) &&
      (|rows| > 0 ==> 1 <= |rows[|rows| - 1]| <= w)
    decreases |xs|
  {
    if |xs| > w {
      ChunkRowSizes(xs[w..], w);
      var rows, tail := Chunk(xs, w), Chunk(xs[w..], w);
      assert rows == [xs[..w]] + tail;
      assert |tail| > 0;
      assert forall k :: 1 <= k < |rows| ==> rows[k] == tail[k - 1];
    }
  }

  /** `k * w` as repeated addition, which keeps the proofs below linear. */
  function Times(k: nat, w: nat): nat {
    if k == 0 then 0 else Times(k - 1, w) + w
  }

  lemma {:induction false} TimesIsMul(k: nat, w: nat)
    ensures Times(k, w) == k * w
  {
    if k > 0 {
      TimesIsMul(k - 1, w);
      MulSucc(k - 1, w);
    }
  }

  /** With more than `w` elements, the first row is full and the rest are the rows of the remainder. */
  lemma ChunkUnfold<T>(xs: seq<T>, w: nat)
    requires w >= 1
    ensures |xs| == 0 ==> Chunk(xs, w) == []
    ensures 0 < |xs| <= w ==> Chunk(xs, w) == [xs]
    ensures |xs| > w ==> Chunk(xs, w) == [xs[..w]] + Chunk(xs[w..], w)
  {
    if 0 < |xs| <= w {
      assert xs[..|xs|] == xs && xs[|xs|..] == [];
    }
  }

  lemma SliceOfSuffix<T>(xs: seq<T>, a: nat, lo: nat, hi: nat)
    requires a <= |xs| && lo <= hi <= |xs| - a
    ensures xs[a..][lo..hi] == xs[a + lo..a + hi]
  {
  }

  /** Row `k` starts at offset `Times(k, w)` and takes up to `w` elements from there. */
  lemma {:induction false} ChunkAtOffset<T>(xs: seq<T>, w: nat, k: nat)
    requires w >= 1 && k < |Chunk(xs, w)|
    ensures Times(k, w) < |xs|
    ensures Chunk(xs, w)[k] == xs[Times(k, w) .. Min(Times(k, w) + w, |xs|)]
    decreases k
  {
    ChunkUnfold(xs, w);
    if k > 0 {
      var tail := xs[w..];
      ChunkAtOffset(tail, w, k - 1);
      var lo := Times(k - 1, w);
      var hi := Min(lo + w, |tail|);
      SliceOfSuffix(xs, w, lo, hi);
    }
  }

  /**
   * Row `k` is the slice that the comprehension takes for `i = k * w`,
   * the `k`-th value of `range(0, len(xs), w)`.
   */
  lemma ChunkAt<T>(xs: seq<T>, w: nat, k: nat)
    requires w >= 1 && k < |Chunk(xs, w)|
    ensures k * w < |xs|
    ensures Chunk(xs, w)[k] == xs[k * w .. Min(k * w + w, |xs|)]
  {
    ChunkAtOffset(xs, w, k);
    TimesIsMul(k, w);
  }
}

=== FILE: pagination.dfy ===
/**
 * The pagination window of `InlineKeyboard`: for `count_pages` T and
 * `current_page` C, one row of at most five navigation buttons.
 */
module Pagination {

  import opened Wrappers
  import opened PyValue
  import opened Format
  import opened Buttons

  /** A navigation button: how it is drawn and the page it leads to. */
  datatype NavButton =
    | Plain(page: int)
    | Current(page: int)
    | First
    | Prev(page: int)
    | Next(page: int)
    | Last(page: int)

  /** The page a button's callback carries. */
  function Target(b: NavButton): int {
    if b.First? then 1 else b.page
  }

  /** The four shapes, chosen in this order by `_build_pagination`. */
  datatype WindowCase = Full | Left | Right | Middle

  function CaseOf(countPages: int, currentPage: int): WindowCase {
    if countPages <= 5 then Full
    else if currentPage <= 3 then Left
    else if currentPage > countPages - 3 then Right
    else Middle
  }

  /** `_full_pagination`: every page from 1 to T, C marked as current. */
  function FullWindow(countPages: int, currentPage: int): seq<NavButton> {
    seq(if countPages > 0 then countPages else 0, i =>
      var number := i + 1;
      if number != currentPage then Plain(number) else Current(number))
  }

  /** `_left_pagination`: pages 1 to 5, where 4 is drawn as "next" and 5 leads to the last page. */
  function LeftWindow(countPages: int, currentPage: int): seq<NavButton> {
    seq(5, i =>
      var number := i + 1;
      if number == currentPage then Current(number)
      else if number == 4 then Next(number)
      else if number == 5 then Last(countPages)
      else Plain(number))
  }

  /** `_right_pagination`: first, previous (T - 3), then pages T - 2 to T. */
  function RightWindow(countPages: int, currentPage: int): seq<NavButton> {
    [First, Prev(countPages - 3)] +
    seq(3, i =>
      var number := countPages - 2 + i;
      if number == currentPage then Current(number) else Plain(number))
  }

  /** `_middle_pagination` */
  function MiddleWindow(countPages: int, currentPage: int): seq<NavButton> {
    [First, Prev(currentPage - 1), Current(currentPage), Next(currentPage + 1), Last(countPages)]
  }

  /** `_build_pagination` */
  function Window(countPages: int, currentPage: int): (w: seq<NavButton>)
    ensures |w| == if countPages > 5 then 5 else if countPages > 0 then countPages else 0
  {
    match CaseOf(countPages, currentPage)
    case Full => FullWindow(countPages, currentPage)
    case Left => LeftWindow(countPages, currentPage)
    case Right => RightWindow(countPages, currentPage)
    case Middle => MiddleWindow(countPages, currentPage)
  }

  /** The text of the current-page button: `"· {} ·".format(C)`. */
  function CurrentText(page: int): string {
    "\U{00B7} " + IntToString(page) + " \U{00B7}"
  }

  /**
   * The `text` argument of each button. A plain page button is given the
   * page number itself, an `int`; the others a string from their symbol.
   */
  function Label(b: NavButton): Value {
    match b
    case Plain(n) => Int(n)
    case Current(n) => Str(CurrentText(n))
    case First => Str("\U{00AB} " + IntToString(1))
    case Prev(n) => Str("\U{2039} " + IntToString(n))
    case Next(n) => Str(IntToString(n) + " \U{203A}")
    case Last(n) => Str(IntToString(n) + " \U{00BB}")
  }

  /** `_add_button(text, target)`; `None` when the pattern cannot be formatted. */
  function Render(b: NavButton, pattern: Pattern): Option<Button> {
    match FormatWith(pattern, "number", IntToString(Target(b)))
    case None => None
    case Some(callbackData) => Some(CallbackButton(Label(b), callbackData))
  }

  /** Every button of a window rendered; the comprehension raises at the first button that fails. */
  function RenderRow(w: seq<NavButton>, pattern: Pattern): (r: Option<seq<Button>>)
    ensures r.Some? <==> (|w| == 0 || OnlyField(pattern, "number"))
    ensures r.Some? ==> |r.value| == |w| && forall i :: 0 <= i < |w| ==> Render(w[i], pattern) == Some(r.value[i])
  {
    if |w| == 0 then Some([])
    else
      match Render(w[0], pattern)
      case None => None
      case Some(b) =>
        match RenderRow(w[1..], pattern)
        case None => None
        case Some(rest) => Some([b] + rest)
  }

  /** The row that `paginate` appends. */
  function PaginationRow(countPages: int, currentPage: int, pattern: Pattern): Option<seq<Button>> {
    RenderRow(Window(countPages, currentPage), pattern)
  }

  predicate ValidPage(countPages: int, currentPage: int) {
    1 <= currentPage <= countPages
  }

  /** Targets rise strictly from page 1 to page T, staying within 1..T. */
  lemma WindowTargets(countPages: int, currentPage: int)
    requires ValidPage(countPages, currentPage)
    ensures var w := Window(countPages, currentPage);
      |w| > 0 &&
      Target(w[0]) == 1 && Target(w[|w| - 1]) == countPages &&
      (forall i, j :: 0 <= i < j < |w| ==> Target(w[i]) < Target(w[j])) &&
      (forall i :: 0 <= i < |w| ==> 1 <= Target(w[i]) <= countPages)
  {
  }

  /** A button is drawn as current exactly when it leads to page C, and one of them does. */
  lemma WindowCurrent(countPages: int, currentPage: int)
    requires ValidPage(countPages, currentPage)
    ensures var w := Window(countPages, currentPage);
      (forall i :: 0 <= i < |w| ==> (w[i].Current? <==> Target(w[i]) == currentPage)) &&
      (exists i :: 0 <= i < |w| && Target(w[i]) == currentPage)
  {
    var w := Window(countPages, currentPage);
    var i := match CaseOf(countPages, currentPage)
      case Full => currentPage - 1
      case Left => currentPage - 1
      case Right => currentPage - countPages + 4
      case Middle => 2;
    assert Target(w[i]) == currentPage;
  }

  /** Exactly one button of the window is drawn as current, and it leads to page C. */
  lemma ExactlyOneCurrent(countPages: int, currentPage: int)
    requires ValidPage(countPages, currentPage)
    ensures var w := Window(countPages, currentPage);
      exists i :: 0 <= i < |w| && w[i] == Current(currentPage) &&
        forall j :: 0 <= j < |w| && j != i ==> !w[j].Current?
  {
    var w := Window(countPages, currentPage);
    WindowCurrent(countPages, currentPage);
    WindowTargets(countPages, currentPage);
    var i :| 0 <= i < |w| && Target(w[i]) == currentPage;
    forall j | 0 <= j < |w| && j != i
      ensures !w[j].Current?
    {
      assert Target(w[j]) != Target(w[i]);
    }
  }

  /** Only the current button's text starts with the current-page mark. */
  lemma LabelMarksCurrent(b: NavButton, page: int)
    ensures Label(b) == Str(CurrentText(page)) ==> b == Current(page)
  {
    var mark := CurrentText(page);
    assert mark[0] == '\U{00B7}';
    match b
    case Current(n) =>
      if IntToString(n) == IntToString(page) {
        IntToStringInjective(n, page);
      }
      assert CurrentText(n)[2..|CurrentText(n)| - 2] == IntToString(n);
      assert mark[2..|mark| - 2] == IntToString(page);
    case Next(n) =>
      assert Label(b).s[0] == IntToString(n)[0];
    case Last(n) =>
      assert Label(b).s[0] == IntToString(n)[0];
    case _ =>
  }

  /** Exactly the current button carries the text `"· C ·"`. */
  lemma CurrentLabelUnique(countPages: int, currentPage: int)
    requires ValidPage(countPages, currentPage)
    ensures var w := Window(countPages, currentPage);
      forall i :: 0 <= i < |w| ==> (Label(w[i]) == Str(CurrentText(currentPage)) <==> w[i].Current?)
  {
    var w := Window(countPages, currentPage);
    WindowCurrent(countPages, currentPage);
    forall i | 0 <= i < |w|
      ensures Label(w[i]) == Str(CurrentText(currentPage)) <==> w[i].Current?
    {
      LabelMarksCurrent(w[i], currentPage);
    }
  }

  /** The middle shape: first, previous, current, next, last around C. */
  lemma MiddleShape(countPages: int, currentPage: int)
    requires countPages > 5 && 3 < currentPage <= countPages - 3
    ensures Window(countPages, currentPage) ==
      [First, Prev(currentPage - 1), Current(currentPage), Next(currentPage + 1), Last(countPages)]
  {
  }

  /** The left shape: page 4 drawn as "4 ›", the fifth button leads to T. */
  lemma LeftShape(countPages: int, currentPage: int)
    requires countPages > 5 && 1 <= currentPage <= 3
    ensures var w := Window(countPages, currentPage);
      w[3] == Next(4) && Label(w[3]) == Str("4 \U{203A}") &&
      w[4] == Last(countPages) && Target(w[4]) == countPages &&
      w[currentPage - 1] == Current(currentPage) &&
      forall i :: 0 <= i < 3 && i != currentPage - 1 ==> w[i] == Plain(i + 1)
  {
  }

  /** The right shape: first, previous (T - 3), then pages T - 2 to T. */
  lemma RightShape(countPages: int, currentPage: int)
    requires countPages > 5 && countPages - 3 < currentPage <= countPages
    ensures var w := Window(countPages, currentPage);
      w[..2] == [First, Prev(countPages - 3)] &&
      forall i :: 2 <= i < 5 ==>
        w[i] == if countPages - 4 + i == currentPage then Current(currentPage) else Plain(countPages - 4 + i)
  {
  }

  /** Windows from the boundaries of the case split. */
  lemma WindowExamples()
    ensures Window(100, 50) == [First, Prev(49), Current(50), Next(51), Last(100)]
    ensures Window(6, 3) == [Plain(1), Plain(2), Current(3), Next(4), Last(6)]
    ensures Window(7, 5) == [First, Prev(4), Current(5), Plain(6), Plain(7)]
    ensures Window(7, 4) == [First, Prev(3), Current(4), Next(5), Last(7)]
    ensures Window(1, 1) == [Current(1)]
  {
  }

  /** Each button's callback is the pattern with `{number}` replaced by the button's target page. */
  lemma PaginationCallbacks(countPages: int, currentPage: int, pattern: Pattern)
    requires OnlyField(pattern, "number")
    ensures var w := Window(countPages, currentPage);
      var r := PaginationRow(countPages, currentPage, pattern);
      r.Some? && |r.value| == |w| &&
      forall i :: 0 <= i < |w| ==>
        r.value[i] == CallbackButton(Label(w[i]), FormatWith(pattern, "number", IntToString(Target(w[i]))).value)
  {
    var w := Window(countPages, currentPage);
    var r := PaginationRow(countPages, currentPage, pattern);
    forall i | 0 <= i < |w|
      ensures r.value[i] == CallbackButton(Label(w[i]), FormatWith(pattern, "number", IntToString(Target(w[i]))).value)
    {
      assert Render(w[i], pattern) == Some(r.value[i]);
    }
  }
}

=== FILE: py_value.dfy ===
/**
 * The Python values that reach the library through configuration
 * dictionaries and exception fields, with the parts of `str()`, `repr()`,
 * `type().__name__` and `isinstance(_, int)` that the library relies on.
 */
module PyValue {

  import opened Wrappers

  /** A Python value. `Other` stands for any other object, by its type name and its `str()` form. */
  datatype Value =
    | Str(s: string)
    | Int(i: int)
    | Bool(b: bool)
    | NoneValue
    | List(items: seq<Value>)
    | Dict(entries: seq<(string, Value)>)
    | Other(typeName: string, text: string)

  /** `isinstance(v, int)`: in Python `bool` is a subclass of `int`. */
  predicate IsInt(v: Value) {
    v.Int? || v.Bool?
  }

  /** The integer a Python int or bool stands for (`True == 1`, `False == 0`). */
  function AsInt(v: Value): int
    requires IsInt(v)
  {
    match v
    case Int(i) => i
    case Bool(b) => if b then 1 else 0
  }

  /** `type(v).__name__` */
  function TypeName(v: Value): string {
    match v
    case Str(_) => "str"
    case Int(_) => "int"
    case Bool(_) => "bool"
    case NoneValue => "NoneType"
    case List(_) => "list"
    case Dict(_) => "dict"
    case Other(name, _) => name
  }

  predicate IsDigit(ch: char) {
    '0' <= ch <= '9'
  }

  predicate AllDigits(s: string) {
    forall k :: 0 <= k < |s| ==> IsDigit(s[k])
  }

  function DigitChar(d: nat): (ch: char)
    requires d < 10
    ensures IsDigit(ch) && DigitValue(ch) == d
  {
    "0123456789"[d]
  }

  function DigitValue(ch: char): nat
    requires IsDigit(ch)
  {
    ch as int - '0' as int
  }

  /** `str(n)` for a non-negative integer: its decimal digits, most significant first. */
  function NatToString(n: nat): (s: string)
    ensures |s| >= 1
    ensures AllDigits(s)
    ensures n > 0 ==> s[0] != '0'
  {
    if n < 10 then [DigitChar(n)] else NatToString(n / 10) + [DigitChar(n % 10)]
  }

  /** `str(n)` for any integer. */
  function IntToString(n: int): (s: string)
    ensures |s| >= 1
    ensures s[0] == '-' || IsDigit(s[0])
  {
    if n < 0 then "-" + NatToString(-n) else NatToString(n)
  }

  /** The value of a non-empty string of decimal digits (`int(s)` restricted to plain digits). */
  function DigitsValue(s: string): nat
    requires AllDigits(s)
  {
    if |s| == 0 then 0 else 10 * DigitsValue(s[..|s| - 1]) + DigitValue(s[|s| - 1])
  }

  /** `int(s)` for the strings `str` produces from integers; `None` for anything else. */
  function ParseInt(s: string): Option<int> {
    if |s| >= 2 && s[0] == '-' && AllDigits(s[1..]) then
      Some(0 - DigitsValue(s[1..]) as int)
    else if |s| >= 1 && AllDigits(s) then
      Some(DigitsValue(s))
    else
      None
  }

  lemma {:induction false} NatToStringValue(n: nat)
    ensures DigitsValue(NatToString(n)) == n
  {
    var s := NatToString(n);
    if n >= 10 {
      NatToStringValue(n / 10);
      assert s[..|s| - 1] == NatToString(n / 10);
    }
  }

  lemma NonNegativeRoundTrip(n: nat)
    ensures ParseInt(NatToString(n)) == Some(n)
  {
    var s := NatToString(n);
    assert s[0] != '-';
    NatToStringValue(n);
  }

  lemma ParseNegative(digits: string)
    requires |digits| >= 1 && AllDigits(digits)
    ensures ParseInt("-" + digits) == Some(0 - DigitsValue(digits) as int)
  {
    assert ("-" + digits)[1..] == digits;
  }

  lemma NegativeRoundTrip(m: nat)
    ensures ParseInt("-" + NatToString(m)) == Some(0 - m)
  {
    ParseNegative(NatToString(m));
    NatToStringValue(m);
  }

  /** `int(str(n)) == n`: the decimal form of an integer identifies it. */
  lemma IntToStringRoundTrip(n: int)
    ensures ParseInt(IntToString(n)) == Some(n)
  {
    if n < 0 {
      NegativeRoundTrip(-n);
    } else {
      NonNegativeRoundTrip(n);
    }
  }

  /** Two integers with the same decimal form are equal. */
  lemma IntToStringInjective(m: int, n: int)
    requires IntToString(m) == IntToString(n)
    ensures m == n
  {
    IntToStringRoundTrip(m);
    IntToStringRoundTrip(n);
  }

  /** The elements of `parts` joined by `", "`. */
  function JoinComma(parts: seq<string>): string {
    if |parts| == 0 then ""
    else if |parts| == 1 then parts[0]
    else parts[0] + ", " + JoinComma(parts[1..])
  }

  /** `str(v)` for a value that is not a container. */
  function ScalarText(v: Value): string
    requires !v.List? && !v.Dict?
  {
    match v
    case Str(s) => s
    case Int(i) => IntToString(i)
    case Bool(b) => if b then "True" else "False"
    case NoneValue => "None"
    case Other(_, text) => text
  }

  /** `repr(v)`; a string is quoted with single quotes (see README for the escaping left out). */
  function Repr(v: Value): string {
    match v
    case Str(s) => "'" + s + "'"
    case List(items) => "[" + JoinComma(seq(|items|, k requires 0 <= k < |items| => Repr(items[k]))) + "]"
    case Dict(entries) =>
      "{" + JoinComma(seq(|entries|, k requires 0 <= k < |entries| =>
        "'" + entries[k].0 + "': " + Repr(entries[k].1))) + "}"
    case _ => ScalarText(v)
  }

  /** `str(v)` */
  function Display(v: Value): string {
    if v.List? || v.Dict? then Repr(v) else ScalarText(v)
  }
}

=== FILE: wrappers.dfy ===
/** Option and Result, used for Python's optional values and raised exceptions. */
module Wrappers {

  datatype Option<+T> = None | Some(value: T)

  datatype Result<+R, +E> = Success(value: R) | Failure(error: E)
}
